=== FILE: README.md ===
# Execution Risk Governance Dashboard — data pipeline model

This project models the data pipeline of the Streamlit script `app.py`. The script
reads a weekly per-instrument risk table, keeps the latest row of every
instrument, computes the 75th, 90th and 95th percentiles of the rolling score
`execution_risk_8w` over that snapshot, and sorts every instrument into one of four
review bands: Normal, Monitor, Soft Escalation or Hard Review. It then shows the
band counts, a ranking by score, an eight-week drilldown for one selected
instrument, and a system/market attribution split for that instrument.

The model is functional. A row is the datatype
`Row(instrument, week: Option<int>, risk8w, weekly, pctSystem)`. Weeks are day
numbers, and `None` stands for a date pandas could not parse (NaT). Scores are
`real`, so the interpolated percentiles are exact. `st.stop()` and the failing
`values[0]` lookup become the `Failure` side of a `Result`.

Modules, in pipeline order:

- `Wrappers`: `Option` and `Result`.
- `Seqs`: filtering, a sort by a given order, and the order and distinctness facts they keep.
- `Table`: the row datatype, the pandas week order (NaT after every date), and instrument selection.
- `Normalize`: the all-weeks-unparsed halt.
- `Snapshot`: the latest row per instrument.
- `Bands`: linear-interpolation quantiles, thresholds, `assign_band`, band counts.
- `Views`: ranking, drilldown window, attribution.
- `Dashboard`: the whole render as one function `Run`, which calls `Render` for everything after the latest snapshot.
- `Scenarios`: concrete cases the dashboard must handle.

Sorting. pandas' `sort_values` uses an unstable quicksort by default. So the
order of rows with equal keys is not fixed. For the latest snapshot this matters:
it decides which of two same-week rows of an instrument is kept. The model
therefore does not pick a tie-break. `Run` and `LatestSnapshot` take the sort's
outcome `byWeek` as a parameter. That parameter may be any permutation of the
rows in week order with NaT last (`IsWeekOrdering`). Every property of the
snapshot is proved for every such ordering. `EqualWeeksLeaveTieOpen` shows two
admissible orderings that keep different rows. When instrument and week identify a row, the tie order cannot matter: every admissible snapshot holds the same rows, and the thresholds come out the same (`ThresholdsIgnoreTieOrder`). The ranking sort (line 86) and the
drilldown sort (line 119) use one concrete insertion sort. Their ties only change
display order, and the contracts state the order and the contents, not a tie order.
The earlier sort by `["Instrument", "week"]` at line 29 only reorders the table,
which the `byWeek` parameter already covers.

Two consequences of the code that a reader might not expect:

- `sort_values("week")` at line 37 uses pandas' default unstable sort, so the model
  leaves the equal-week tie open (`EqualWeeksLeaveTieOpen`): which of two same-week
  rows of an instrument is kept is not fixed.
- The cutoff `week >= max - 8 weeks` at lines 127-129 is inclusive, so ten weekly rows keep
  nine, not eight (`DrilldownKeepsNineOfTen`, `WeeklyWindowHasAtMostNine`).

## Model

| member | source | states |
|---|---|---|
| Normalize.AnyParsed | app.py:25 | true exactly when some row has a parsed week, i.e. the negation of `df["week"].isna().all()` |
| Normalize.CheckWeeks | app.py:23-27 | the pipeline halts with the week-parse error exactly when every week is unparsed, the empty table included; otherwise every row, unparsed ones too, is kept unchanged |
| Table.SortByWeek | app.py:119 | one outcome of the drilldown's `sort_values("week")`: a permutation of the rows in week order with unparsed weeks last |
| Table.OfInstrument | app.py:118 | the rows of one instrument: a row is kept exactly when its instrument matches, as often as it occurs in the table |
| Table.DistinctInstrumentsCount | app.py:36-41 | a table with no repeated instrument has exactly as many rows as distinct instruments |
| Snapshot.LastPerInstrument | app.py:38-39 | `groupby("Instrument").tail(1)` keeps exactly the input rows after which no row of the same instrument follows: every kept row is such a row, every such row is kept, every instrument of the input is covered, and none is kept twice |
| Snapshot.LastPerInstrumentIsLatest | app.py:36-41 | on a week-sorted table, the row kept for an instrument has a week no earlier than any row of that instrument |
| Snapshot.LatestSnapshot | app.py:36-41 | for every admissible sort outcome: one row per distinct instrument, each an input row, each with its instrument's greatest week (NaT above all dates); its length is the number of distinct instruments |
| Snapshot.OneRowPerInstrument | app.py:36-41 | each instrument of the table occurs at exactly one position of the snapshot |
| Snapshot.UndatedRowWins | app.py:37 | an instrument that has an unparsed week is represented by an unparsed row, because NaT sorts last |
| Snapshot.SnapshotsAgree | app.py:37-39 | two admissible snapshots pick rows of equal week for each instrument, and the very same row when the instrument's dated weeks are unique |
| Snapshot.SnapshotsHoldSameRows | app.py:36-41 | when instrument and week identify a row, every admissible snapshot holds the same rows |
| Bands.AssignBand | app.py:48-56 | Hard Review exactly when the score reaches p95; Normal exactly when it reaches no threshold; with ordered thresholds the band's severity is the number of thresholds the score reaches |
| Bands.ThresholdsAreInclusive | app.py:48-56 | a score equal to a threshold gets the higher band |
| Bands.BandMonotone | app.py:48-58 | a higher score never gets a strictly lower band under the same thresholds |
| Bands.InterpolateAt | app.py:44-46 | linear interpolation at a virtual index stays between the least and the greatest sorted value |
| Bands.InterpolateAtIndex | app.py:44-46 | at a whole-number virtual index the interpolated value is exactly that sorted value |
| Bands.InterpolateMonotone | app.py:44-46 | the interpolated value never decreases as the virtual index grows |
| Bands.VirtualIndex | app.py:44-46 | the virtual index (n-1)·q lies in the range of valid positions |
| Bands.Quantile | app.py:44-46 | `Series.quantile(q)` lies between the least and the greatest value |
| Bands.QuantileOfSorted | app.py:44-46 | on already sorted values the quantile interpolates them directly |
| Bands.QuantileMonotone | app.py:44-46 | a larger q never gives a smaller quantile |
| Bands.SortedSame | app.py:44-46 | two sorted arrangements of the same values are the same sequence |
| Bands.QuantileOfPermutation | app.py:44-46 | `Series.quantile` depends only on the values, not on their order |
| Bands.ThresholdsOfPermutation | app.py:44-46 | p75, p90 and p95 depend only on the scores, not on the order of the snapshot rows |
| Bands.ScoresOfPermutation | app.py:44 | the `execution_risk_8w` column of a rearranged table is the same scores rearranged |
| Bands.ComputeThresholds | app.py:44-46 | min <= p75 <= p90 <= p95 <= max over the snapshot scores |
| Bands.Classify | app.py:58 | every snapshot row, in order, paired with the band of its score |
| Bands.TopScoreIsHardReview | app.py:44-56 | the top-scoring instrument is always Hard Review |
| Bands.EqualScoresAllHardReview | app.py:44-56 | when every score is equal, every instrument is Hard Review |
| Bands.CountBand | app.py:66-69 | a band's count is the number of times that band occurs in the band column |
| Bands.CountsCoverAllRows | app.py:66-69 | the four band counts add up to the number of rows |
| Bands.Tally | app.py:66-69 | each of the four cells is the number of rows in its band, and the cells add up to the number of snapshot rows |
| Views.Rank | app.py:86 | the ranking is a permutation of the classified snapshot, ordered by non-increasing `execution_risk_8w` |
| Views.RankingHeadIsHardReview | app.py:86 | the first row of the ranking is Hard Review |
| Views.MaxWeek | app.py:126 | `Series.max()` of weeks: the greatest parsed week, taken from some row, skipping NaT; NaT when no week parsed |
| Views.RecentOfSorted | app.py:119-129 | rows already in week order are not reordered by the drilldown, only cut at their own latest week minus eight weeks |
| Views.Recent | app.py:119-129 | one instrument's rows in week order, holding exactly the rows within eight weeks of the latest parsed week |
| Views.RecentKeepsPairwise | app.py:119-129 | sorting and cutting keep any symmetric relation among the rows, such as unique weeks |
| Views.Window | app.py:117-129 | the drilldown is in ascending week order and holds exactly the selected instrument's rows with week in [own max - 56 days, own max], each as often as in the table |
| Views.WindowIgnoresOtherInstruments | app.py:117-129 | rows of other instruments, placed before or after, do not change the drilldown |
| Views.WeeklySpread | app.py:126-129 | same-weekday rows with distinct weeks, in week order, span at least seven days per step |
| Views.WeeklyWindowShape | app.py:117-129 | on weekly data the window rows are dated, unique per week, on one weekday, and within eight weeks of the latest week |
| Views.WeeklyWindowHasAtMostNine | app.py:126-129 | on weekly data the inclusive cutoff keeps at most nine rows |
| Views.Attribute | app.py:189-192 | succeeds exactly when the instrument has a snapshot row; system and market shares sum to 100 and the system share is that row's `pct_system`; otherwise the missing-row error |
| Views.AttributionOfOnlyRow | app.py:189-192 | with one row per instrument, the split is exactly that row's `pct_system` and 100 minus it |
| Dashboard.Render | app.py:44-192 | on a latest snapshot: fails with the missing-row error exactly when the selected instrument is not in the table; otherwise the thresholds are the snapshot's percentiles, the bands classify the snapshot in order, each count is the number of rows in its band, the ranking is a sorted permutation headed by Hard Review, the window is in ascending week order and holds exactly the selected instrument's recent rows, and the attribution is the selected snapshot row's `pct_system` and 100 minus it |
| Dashboard.ThresholdsIgnoreTieOrder | app.py:36-46 | when instrument and week identify a row, the thresholds are the same for every order the unstable week sort can give |
| Dashboard.Run | app.py:23-192 | halts with the week error exactly when no week parsed; succeeds exactly when some week parsed and the selected instrument is in the table, and otherwise fails with the missing-row error for that instrument; then the snapshot is the latest snapshot of the table, the thresholds are its percentiles, `latest` is its classification, each count is the number of rows in its band, the ranking is a sorted permutation headed by Hard Review, the drilldown window is in ascending week order and holds exactly the selected instrument's recent rows, and the attribution is that instrument's snapshot `pct_system` and 100 minus it |
| Scenarios.UnparsedWeeksHalt | app.py:23-27 | a column where every week fails to parse, and the empty table, halt the pipeline |
| Scenarios.TenScoresThresholds | app.py:44-56 | scores 10..100 give thresholds 77.5, 91 and 95.5; 100 is Hard Review and 90 is Monitor |
| Scenarios.CutoffDropsFirstWeek | app.py:126-129 | on weekly rows from day 0, a cutoff at day 7 drops exactly the first row |
| Scenarios.DrilldownKeepsNineOfTen | app.py:117-129 | with ten weekly rows of A and five of B, A's drilldown is exactly A's last nine rows |
| Scenarios.SeventyThirtySplit | app.py:189-192 | `pct_system` 70 gives System 70, Market 30 |
| Scenarios.EqualWeeksLeaveTieOpen | app.py:36-41 | two rows of one instrument with equal week admit two sort outcomes that keep different rows |

## Left out

- CSV loading (line 15): file input. The model starts from a sequence of rows.
- Column-name stripping and the `reset_index` fallback (lines 18-21): table-schema plumbing with no logic on values.
- Date parsing inside `pd.to_datetime` (line 23): library behaviour. Weeks arrive already parsed as `Option<int>` day numbers. The second `pd.to_datetime` at line 123 does nothing to parsed values.
- All Streamlit and Plotly rendering: metrics, tables, charts, the `add_hline` styling, and the column projection of the ranking at lines 88-99. The reference lines at lines 147 and 154 recompute p90 and p95 and are `ComputeThresholds`.
- The selection widget (lines 109-112): the selected instrument is a parameter of `Run`. `Run` succeeds exactly when that instrument has a snapshot row, which every option of the widget does.
- Timestamp range: weeks are unbounded day numbers. pandas timestamps are bounded, and line 127 raises `OutOfBoundsDatetime` when the latest week lies within eight weeks of the lower bound (1677-09-21). The model returns a window there instead.
- NaN scores and IEEE rounding in `quantile`: scores are `real`.
- Missing `Instrument` values: the instrument is always a string. pandas' `groupby("Instrument")` (line 38) drops rows without an instrument from the snapshot, and such rows never match `== instrument` (lines 118 and 189). The model has no such rows.
- Bands.Quantile: requires a non-empty series, whereas pandas returns NaN for an empty one. Within the model's domain, where every row has an instrument, the pipeline never reaches the quantiles with an empty snapshot: the week check passes only on a non-empty table, and the snapshot has one row per instrument of it. A table that passes the week check but whose rows all lack an instrument would reach `quantile` with an empty snapshot in the program; the model does not cover it.
- Re-running the script on every interaction: each run is one call of the pure function `Run`, so the same input and sort outcome always give the same report.

=== FILE: bands.dfy ===
/** Percentile thresholds and the four review bands (app.py:44-69). */
module Bands {
  import opened Seqs
  import opened Table

  /** The review bands, from least to most severe. */
  datatype Band = Normal | Monitor | SoftEscalation | HardReview

  function Severity(b: Band): nat
  {
    match b
    case Normal => 0
    case Monitor => 1
    case SoftEscalation => 2
    case HardReview => 3
  }

  /** The 75th, 90th and 95th percentiles of `execution_risk_8w` over the snapshot. */
  datatype Thresholds = Thresholds(p75: real, p90: real, p95: real)

  predicate Ordered(t: Thresholds)
  {
    t.p75 <= t.p90 <= t.p95
  }

  /** A snapshot row together with the band it was given (`latest["band"]`). */
  datatype Classified = Classified(row: Row, band: Band)

  /** The number of thresholds a score reaches: an independent reading of the band. */
  function Reached(score: real, t: Thresholds): nat
  {
    (if t.p75 <= score then 1 else 0) + (if t.p90 <= score then 1 else 0) + (if t.p95 <= score then 1 else 0)
  }

  /** `assign_band`: each threshold is an inclusive lower bound, tried from the top. */
  function AssignBand(score: real, t: Thresholds): (b: Band)
    ensures b == HardReview <==> t.p95 <= score
    ensures b == Normal <==> score < t.p75 && score < t.p90 && score < t.p95
    ensures Ordered(t) ==> Severity(b) == Reached(score, t)
  {
    if score >= t.p95 then HardReview
    else if score >= t.p90 then SoftEscalation
    else if score >= t.p75 then Monitor
    else Normal
  }

  /** A score equal to a threshold falls into the higher band. */
  lemma ThresholdsAreInclusive(t: Thresholds)
    requires Ordered(t)
    ensures AssignBand(t.p95, t) == HardReview
    ensures t.p90 < t.p95 ==> AssignBand(t.p90, t) == SoftEscalation
    ensures t.p75 < t.p90 ==> AssignBand(t.p75, t) == Monitor
  {
  }

  /** A higher score never gets a strictly lower band under the same thresholds. */
  lemma BandMonotone(s1: real, s2: real, t: Thresholds)
    requires s1 <= s2
    ensures Severity(AssignBand(s1, t)) <= Severity(AssignBand(s2, t))
  {
  }

  predicate RealLe(a: real, b: real)
  {
    a <= b
  }

  function SortReals(xs: seq<real>): (r: seq<real>)
    ensures |r| == |xs|
    ensures multiset(r) == multiset(xs)
    ensures Pairwise(r, RealLe)
  {
    var r := SortBy(xs, RealLe);
    assert |r| == |multiset(r)| == |multiset(xs)| == |xs|;
    r
  }

  /** The point a fraction `f` of the way from `a` to `b`. */
  function Lerp(a: real, b: real, f: real): real
  {
    a + f * (b - a)
  }

  lemma LerpBetween(a: real, b: real, f: real)
    requires a <= b && 0.0 <= f <= 1.0
    ensures a <= Lerp(a, b, f) <= b
  {
    var d := b - a;
    MulBetween(f, d);
    assert Lerp(a, b, f) == a + f * d;
  }

  lemma LerpMonotone(a: real, b: real, f1: real, f2: real)
    requires a <= b && 0.0 <= f1 <= f2
    ensures Lerp(a, b, f1) <= Lerp(a, b, f2)
  {
    MulNonneg(f2 - f1, b - a);
    assert (f2 - f1) * (b - a) == f2 * (b - a) - f1 * (b - a);
  }

  lemma MulNonneg(a: real, b: real)
    requires 0.0 <= a && 0.0 <= b
    ensures 0.0 <= a * b
  {
  }

  lemma MulBetween(f: real, d: real)
    requires 0.0 <= f <= 1.0 && 0.0 <= d
    ensures 0.0 <= f * d <= d
  {
    MulNonneg(f, d);
    MulNonneg(1.0 - f, d);
    assert (1.0 - f) * d == d - f * d;
  }

  /** The sorted neighbour positions around the virtual index `h`. */
  function Below(n: nat, h: real): (lo: nat)
    requires 0.0 <= h <= (n - 1) as real
    ensures lo < n
    ensures lo as real <= h < lo as real + 1.0
  {
    h.Floor
  }

  function Above(n: nat, h: real): (hi: nat)
    requires 0.0 <= h <= (n - 1) as real
    ensures Below(n, h) <= hi < n
    ensures hi == Below(n, h) ==> hi == n - 1
  {
    if Below(n, h) + 1 < n then Below(n, h) + 1 else Below(n, h)
  }

  /** Value at the virtual index `h` of sorted values: linear interpolation between the
      neighbours at floor(h) and floor(h) + 1 (numpy's "linear" method). */
  function InterpolateAt(v: seq<real>, h: real): (r: real)
    requires 0.0 <= h <= (|v| - 1) as real
    ensures Pairwise(v, RealLe) ==> v[0] <= r <= v[|v| - 1]
  {
    var lo, hi := Below(|v|, h), Above(|v|, h);
    var r := Lerp(v[lo], v[hi], h - lo as real);
    assert Pairwise(v, RealLe) ==> v[0] <= r <= v[|v| - 1] by {
      if Pairwise(v, RealLe) {
        if 0 < lo { assert RealLe(v[0], v[lo]); }
        if lo < hi { assert RealLe(v[lo], v[hi]); }
        if hi < |v| - 1 { assert RealLe(v[hi], v[|v| - 1]); }
        LerpBetween(v[lo], v[hi], h - lo as real);
      }
    }
    r
  }

  /** At a whole-number virtual index the quantile is that sorted value itself. */
  lemma InterpolateAtIndex(v: seq<real>, k: nat)
    requires k < |v|
    ensures InterpolateAt(v, k as real) == v[k]
  {
    var hi := Above(|v|, k as real);
    assert Below(|v|, k as real) == k;
    assert Lerp(v[k], v[hi], 0.0) == v[k];
  }

  /** The interpolated value never decreases as the virtual index grows. */
  lemma InterpolateMonotone(v: seq<real>, h1: real, h2: real)
    requires Pairwise(v, RealLe)
    requires 0.0 <= h1 <= h2 <= (|v| - 1) as real
    ensures InterpolateAt(v, h1) <= InterpolateAt(v, h2)
  {
    var n := |v|;
    var lo1, hi1, lo2, hi2 := Below(n, h1), Above(n, h1), Below(n, h2), Above(n, h2);
    if lo1 < hi1 { assert RealLe(v[lo1], v[hi1]); }
    if lo2 < hi2 { assert RealLe(v[lo2], v[hi2]); }
    if lo1 == lo2 {
      LerpMonotone(v[lo1], v[hi1], h1 - lo1 as real, h2 - lo2 as real);
    } else {
      assert hi1 <= lo2;
      if hi1 < lo2 { assert RealLe(v[hi1], v[lo2]); }
      LerpBetween(v[lo1], v[hi1], h1 - lo1 as real);
      LerpBetween(v[lo2], v[hi2], h2 - lo2 as real);
    }
  }

  /** pandas' virtual index (n - 1)·q of the q-quantile of n values. */
  function VirtualIndex(n: nat, q: real): (h: real)
    requires 0 < n && 0.0 <= q <= 1.0
    ensures 0.0 <= h <= (n - 1) as real
  {
    MulBetween(q, (n - 1) as real);
    (n - 1) as real * q
  }

  /** `Series.quantile(q)`: linear interpolation over the sorted values. The result lies
      between the least and the greatest value. */
  function Quantile(xs: seq<real>, q: real): (r: real)
    requires 0 < |xs| && 0.0 <= q <= 1.0
    ensures exists i :: 0 <= i < |xs| && xs[i] <= r
    ensures exists i :: 0 <= i < |xs| && r <= xs[i]
  {
    var v := SortReals(xs);
    var r := InterpolateAt(v, VirtualIndex(|xs|, q));
    assert v[0] in multiset(xs) && v[|v| - 1] in multiset(xs);
    r
  }

  lemma VirtualIndexMonotone(n: nat, q1: real, q2: real)
    requires 0 < n && 0.0 <= q1 <= q2 <= 1.0
    ensures VirtualIndex(n, q1) <= VirtualIndex(n, q2)
  {
    var m := (n - 1) as real;
    MulNonneg(m, q2 - q1);
    assert m * (q2 - q1) == m * q2 - m * q1;
  }

  /** On values already sorted, the quantile interpolates them directly. */
  lemma QuantileOfSorted(v: seq<real>, q: real)
    requires 0 < |v| && 0.0 <= q <= 1.0
    requires Pairwise(v, RealLe)
    ensures Quantile(v, q) == InterpolateAt(v, VirtualIndex(|v|, q))
  {
    SortBySorted(v, RealLe);
  }

  /** A larger q never gives a smaller quantile. */
  lemma QuantileMonotone(xs: seq<real>, q1: real, q2: real)
    requires 0 < |xs| && 0.0 <= q1 <= q2 <= 1.0
    ensures Quantile(xs, q1) <= Quantile(xs, q2)
  {
    var v := SortReals(xs);
    var h1, h2 := VirtualIndex(|xs|, q1), VirtualIndex(|xs|, q2);
    VirtualIndexMonotone(|xs|, q1, q2);
    InterpolateMonotone(v, h1, h2);
    assert Quantile(xs, q1) == InterpolateAt(v, h1);
    assert Quantile(xs, q2) == InterpolateAt(v, h2);
  }

  /** The first of sorted values is the least of them. */
  lemma HeadIsLeast(v: seq<real>)
    requires 0 < |v| && Pairwise(v, RealLe)
    ensures forall x :: x in multiset(v) ==> v[0] <= x
  {
    forall x | x in multiset(v) ensures v[0] <= x {
      assert x in v;
      var k :| 0 <= k < |v| && v[k] == x;
      if 0 < k {
        assert RealLe(v[0], v[k]);
      }
    }
  }

  /** Sorted arrangements of the same values start with the same value. */
  lemma SortedHeadsEqual(a: seq<real>, b: seq<real>)
    requires 0 < |a| && 0 < |b|
    requires Pairwise(a, RealLe) && Pairwise(b, RealLe)
    requires multiset(a) == multiset(b)
    ensures a[0] == b[0]
  {
    HeadIsLeast(a);
    HeadIsLeast(b);
    assert a[0] in multiset(b) && b[0] in multiset(a);
  }

  /** The tail of sorted values is sorted and holds the values less the head. */
  lemma SortedTail(a: seq<real>)
    requires 0 < |a| && Pairwise(a, RealLe)
    ensures Pairwise(a[1..], RealLe)
    ensures multiset(a[1..]) == multiset(a) - multiset{a[0]}
  {
    assert a == [a[0]] + a[1..];
  }

  /** Two sorted arrangements of the same values are the same sequence. */
  lemma {:induction false} SortedSame(a: seq<real>, b: seq<real>)
    requires Pairwise(a, RealLe) && Pairwise(b, RealLe)
    requires multiset(a) == multiset(b)
    ensures a == b
  {
    assert |a| == |multiset(a)| == |multiset(b)| == |b|;
    if 0 < |a| {
      SortedHeadsEqual(a, b);
      SortedTail(a);
      SortedTail(b);
      SortedSame(a[1..], b[1..]);
      assert a == [a[0]] + a[1..] && b == [b[0]] + b[1..];
    }
  }

  /** `Series.quantile` depends only on the values, not on their order. */
  lemma QuantileOfPermutation(xs: seq<real>, ys: seq<real>, q: real)
    requires 0 < |xs| && 0.0 <= q <= 1.0
    requires multiset(xs) == multiset(ys)
    ensures |ys| == |xs|
    ensures Quantile(xs, q) == Quantile(ys, q)
  {
    assert |xs| == |multiset(xs)| == |multiset(ys)| == |ys|;
    SortedSame(SortReals(xs), SortReals(ys));
  }

  /** The thresholds depend only on the scores, not on the order of the rows. */
  lemma ThresholdsOfPermutation(xs: seq<real>, ys: seq<real>)
    requires 0 < |xs| && multiset(xs) == multiset(ys)
    ensures |ys| == |xs|
    ensures ComputeThresholds(xs) == ComputeThresholds(ys)
  {
    QuantileOfPermutation(xs, ys, 0.75);
    QuantileOfPermutation(xs, ys, 0.90);
    QuantileOfPermutation(xs, ys, 0.95);
  }

  /** The `execution_risk_8w` column of a table. */
  function Scores(rows: seq<Row>): (xs: seq<real>)
    ensures |xs| == |rows|
    ensures forall i :: 0 <= i < |rows| ==> xs[i] == rows[i].risk8w
  {
    seq(|rows|, i requires 0 <= i < |rows| => rows[i].risk8w)
  }

  /** The score column of two tables placed end to end. */
  lemma ScoresAppend(a: seq<Row>, b: seq<Row>)
    ensures Scores(a + b) == Scores(a) + Scores(b)
  {
  }

  /** The score column of a non-empty table: the first score, then the rest. */
  lemma ScoresCons(a: seq<Row>)
    requires 0 < |a|
    ensures Scores(a) == [a[0].risk8w] + Scores(a[1..])
  {
  }

  /** Taking row `k` out of a table takes its score out of the score column. */
  lemma ScoresWithout(b: seq<Row>, k: int)
    requires 0 <= k < |b|
    ensures multiset(Scores(b)) == multiset(Scores(b[..k] + b[k + 1..])) + multiset{b[k].risk8w}
  {
    var l, m, r := b[..k], [b[k]] + b[k + 1..], b[k + 1..];
    assert b == l + m && m[1..] == r;
    ScoresAppend(l, m);
    ScoresCons(m);
    ScoresAppend(l, r);
    assert Scores(b) == Scores(l) + [b[k].risk8w] + Scores(r);
  }

  /** If the rest of `a` and the rest of `b` have the same scores, and `a` and `b` start
      from the same row, then `a` and `b` have the same scores. */
  lemma ScoresStep(a: seq<Row>, b: seq<Row>, k: int)
    requires 0 < |a| && 0 <= k < |b| && b[k] == a[0]
    requires multiset(Scores(a[1..])) == multiset(Scores(b[..k] + b[k + 1..]))
    ensures multiset(Scores(a)) == multiset(Scores(b))
  {
    ScoresCons(a);
    assert multiset(Scores(a)) == multiset{a[0].risk8w} + multiset(Scores(a[1..]));
    ScoresWithout(b, k);
  }

  /** Rearranging the rows rearranges their scores. */
  lemma {:induction false} ScoresOfPermutation(a: seq<Row>, b: seq<Row>)
    requires multiset(a) == multiset(b)
    ensures multiset(Scores(a)) == multiset(Scores(b))
  {
    assert |a| == |multiset(a)| == |multiset(b)| == |b|;
    if 0 < |a| {
      assert a[0] in multiset(b);
      var k :| 0 <= k < |b| && b[k] == a[0];
      MultisetWithout(b, k);
      assert multiset(a[1..]) == multiset(a) - multiset{a[0]} by {
        assert a == [a[0]] + a[1..];
      }
      ScoresOfPermutation(a[1..], b[..k] + b[k + 1..]);
      ScoresStep(a, b, k);
    }
  }

  /** Lines 44-46: the three percentile thresholds of the scores. They are ordered and
      lie between the least and the greatest score. */
  function ComputeThresholds(xs: seq<real>): (t: Thresholds)
    requires 0 < |xs|
    ensures Ordered(t)
    ensures exists i :: 0 <= i < |xs| && xs[i] <= t.p75
    ensures exists i :: 0 <= i < |xs| && t.p95 <= xs[i]
  {
    QuantileMonotone(xs, 0.75, 0.90);
    QuantileMonotone(xs, 0.90, 0.95);
    Thresholds(Quantile(xs, 0.75), Quantile(xs, 0.90), Quantile(xs, 0.95))
  }

  /** Line 58: every snapshot row with its band. */
  function Classify(snap: seq<Row>, t: Thresholds): (cs: seq<Classified>)
    ensures |cs| == |snap|
    ensures forall i :: 0 <= i < |cs| ==> cs[i].row == snap[i] && cs[i].band == AssignBand(snap[i].risk8w, t)
  {
    seq(|snap|, i requires 0 <= i < |snap| => Classified(snap[i], AssignBand(snap[i].risk8w, t)))
  }

  /** The top score reaches the 95th percentile, so it is always "Hard Review". */
  lemma TopScoreIsHardReview(snap: seq<Row>, i: int)
    requires 0 <= i < |snap|
    requires forall j :: 0 <= j < |snap| ==> snap[j].risk8w <= snap[i].risk8w
    ensures AssignBand(snap[i].risk8w, ComputeThresholds(Scores(snap))) == HardReview
  {
    var xs := Scores(snap);
    var t := ComputeThresholds(xs);
    var k :| 0 <= k < |xs| && t.p95 <= xs[k];
    assert xs[k] <= snap[i].risk8w;
  }

  /** When every score is equal, every instrument is "Hard Review". */
  lemma EqualScoresAllHardReview(snap: seq<Row>)
    requires 0 < |snap|
    requires forall i, j :: 0 <= i < |snap| && 0 <= j < |snap| ==> snap[i].risk8w == snap[j].risk8w
    ensures forall c :: c in Classify(snap, ComputeThresholds(Scores(snap))) ==> c.band == HardReview
  {
    var cs := Classify(snap, ComputeThresholds(Scores(snap)));
    forall c | c in cs ensures c.band == HardReview {
      var i :| 0 <= i < |cs| && cs[i] == c;
      TopScoreIsHardReview(snap, i);
    }
  }

  /** The `band` column of the classified snapshot. */
  function BandColumn(cs: seq<Classified>): (bs: seq<Band>)
    ensures |bs| == |cs|
    ensures forall i :: 0 <= i < |cs| ==> bs[i] == cs[i].band
  {
    seq(|cs|, i requires 0 <= i < |cs| => cs[i].band)
  }

  /** `(latest["band"] == b).sum()`: how often `b` occurs in the band column. */
  function CountBand(cs: seq<Classified>, b: Band): (n: nat)
    ensures n == multiset(BandColumn(cs))[b]
  {
    if |cs| == 0 then 0
    else
      assert BandColumn(cs) == [cs[0].band] + BandColumn(cs[1..]);
      (if cs[0].band == b then 1 else 0) + CountBand(cs[1..], b)
  }

  /** The four-cell summary of lines 66-69. */
  datatype BandCounts = BandCounts(hard: nat, soft: nat, monitor: nat, normal: nat)

  /** Every row falls in exactly one band, so the four counts add up to the row count. */
  lemma {:induction false} CountsCoverAllRows(cs: seq<Classified>)
    ensures CountBand(cs, HardReview) + CountBand(cs, SoftEscalation) + CountBand(cs, Monitor) + CountBand(cs, Normal) == |cs|
  {
    if |cs| > 0 {
      CountsCoverAllRows(cs[1..]);
    }
  }

  /** Lines 66-69: each cell counts the rows of its band, and the cells cover every row. */
  function Tally(cs: seq<Classified>): (c: BandCounts)
    ensures c.hard == multiset(BandColumn(cs))[HardReview]
    ensures c.soft == multiset(BandColumn(cs))[SoftEscalation]
    ensures c.monitor == multiset(BandColumn(cs))[Monitor]
    ensures c.normal == multiset(BandColumn(cs))[Normal]
    ensures c.hard + c.soft + c.monitor + c.normal == |cs|
  {
    CountsCoverAllRows(cs);
    BandCounts(CountBand(cs, HardReview), CountBand(cs, SoftEscalation), CountBand(cs, Monitor), CountBand(cs, Normal))
  }
}

=== FILE: dashboard.dfy ===
/** The whole data pipeline of the dashboard script: week check, latest snapshot,
    thresholds and bands, band counts, ranking, drilldown window and attribution. */
module Dashboard {
  import opened Wrappers
  import opened Seqs
  import opened Table
  import opened Normalize
  import opened Snapshot
  import opened Bands
  import opened Views

  /** Everything the page shows, before rendering. */
  datatype Report = Report(
    latest: seq<Classified>,
    thresholds: Thresholds,
    counts: BandCounts,
    ranking: seq<Classified>,
    window: seq<Row>,
    attribution: Attribution)

  /** Lines 44-192 on a latest snapshot `snap` of `rows`: thresholds, bands, counts,
      ranking, the drilldown window of `selected` and its attribution. The failing
      `values[0]` lookup becomes an error. */
  function Render(rows: seq<Row>, snap: seq<Row>, selected: string): (r: Result<Report, Error>)
    requires IsLatestSnapshot(rows, snap) && 0 < |snap|
    ensures r.Success? <==> selected in Instruments(rows)
    ensures r.Failure? ==> r.error == NoSnapshotRow(selected)
    ensures r.Success? ==> r.value.thresholds == ComputeThresholds(Scores(snap)) && Ordered(r.value.thresholds)
    ensures r.Success? ==> r.value.latest == Classify(snap, r.value.thresholds)
    ensures r.Success? ==> r.value.counts.hard == multiset(BandColumn(r.value.latest))[HardReview]
    ensures r.Success? ==> r.value.counts.soft == multiset(BandColumn(r.value.latest))[SoftEscalation]
    ensures r.Success? ==> r.value.counts.monitor == multiset(BandColumn(r.value.latest))[Monitor]
    ensures r.Success? ==> r.value.counts.normal == multiset(BandColumn(r.value.latest))[Normal]
    ensures r.Success? ==> r.value.counts.hard + r.value.counts.soft + r.value.counts.monitor + r.value.counts.normal == |snap|
    ensures r.Success? ==> multiset(r.value.ranking) == multiset(r.value.latest) && Pairwise(r.value.ranking, RiskAtLeast)
    ensures r.Success? ==> |r.value.ranking| > 0 && r.value.ranking[0].band == HardReview
    ensures r.Success? ==> Pairwise(r.value.window, RowWeekLe)
    ensures r.Success? ==> forall x :: multiset(r.value.window)[x] == if InRecentWindow(rows, selected, x) then multiset(rows)[x] else 0
    ensures r.Success? ==> exists x :: x in snap && x.instrument == selected
                                       && r.value.attribution == Attribution(x.pctSystem, 100.0 - x.pctSystem)
  {
    var t := ComputeThresholds(Scores(snap));
    var latest := Classify(snap, t);
    RankingHeadIsHardReview(snap);
    match Attribute(snap, selected)
    case Failure(e) => Failure(e)
    case Success(a) =>
      assert exists x :: x in snap && x.instrument == selected && a == Attribution(x.pctSystem, 100.0 - x.pctSystem) by {
        var x :| x in snap && x.instrument == selected && x.pctSystem == a.system;
        assert a.market == 100.0 - x.pctSystem;
      }
      Success(Report(latest, t, Tally(latest), Rank(latest), Window(rows, selected), a))
  }

  /** One render of the page for the instrument `selected`, where `byWeek` is the order
      the week sort produced. `st.stop()` and the failing `values[0]` lookup become
      errors. */
  function Run(rows: seq<Row>, byWeek: seq<Row>, selected: string): (r: Result<Report, Error>)
    requires IsWeekOrdering(rows, byWeek)
    ensures r == Failure(WeekColumnUnparsed) <==> forall i :: 0 <= i < |rows| ==> rows[i].week.None?
    ensures r.Success? <==> (exists i :: 0 <= i < |rows| && rows[i].week.Some?) && selected in Instruments(rows)
    ensures (exists i :: 0 <= i < |rows| && rows[i].week.Some?) && selected !in Instruments(rows) ==>
      r == Failure(NoSnapshotRow(selected))
    ensures r.Success? ==> IsLatestSnapshot(rows, LatestSnapshot(rows, byWeek))
    ensures r.Success? ==> |r.value.latest| == |Instruments(rows)|
    ensures r.Success? ==>
      var snap := LatestSnapshot(rows, byWeek);
      && r.value.thresholds == ComputeThresholds(Scores(snap)) && Ordered(r.value.thresholds)
      && r.value.latest == Classify(snap, r.value.thresholds)
      && r.value.counts.hard == multiset(BandColumn(r.value.latest))[HardReview]
      && r.value.counts.soft == multiset(BandColumn(r.value.latest))[SoftEscalation]
      && r.value.counts.monitor == multiset(BandColumn(r.value.latest))[Monitor]
      && r.value.counts.normal == multiset(BandColumn(r.value.latest))[Normal]
      && multiset(r.value.ranking) == multiset(r.value.latest) && Pairwise(r.value.ranking, RiskAtLeast)
      && |r.value.ranking| > 0 && r.value.ranking[0].band == HardReview
      && Pairwise(r.value.window, RowWeekLe)
      && (forall x :: multiset(r.value.window)[x] == if InRecentWindow(rows, selected, x) then multiset(rows)[x] else 0)
      && (exists x :: x in snap && x.instrument == selected
                      && r.value.attribution == Attribution(x.pctSystem, 100.0 - x.pctSystem))
  {
    match CheckWeeks(rows)
    case Failure(e) => Failure(e)
    case Success(table) =>
      var snap := LatestSnapshot(table, byWeek);
      assert rows[0].instrument in Instruments(rows);
      var r := Render(table, snap, selected);
      assert r.Success? ==> |r.value.latest| == |snap|;
      r
  }

  /** When the instrument and the week identify a row, the thresholds do not depend on
      how the unstable week sort ordered rows of equal week. */
  lemma ThresholdsIgnoreTieOrder(rows: seq<Row>, b1: seq<Row>, b2: seq<Row>)
    requires IsWeekOrdering(rows, b1) && IsWeekOrdering(rows, b2)
    requires KeysDetermineRows(rows)
    requires 0 < |rows|
    ensures 0 < |LatestSnapshot(rows, b1)| && 0 < |LatestSnapshot(rows, b2)|
    ensures ComputeThresholds(Scores(LatestSnapshot(rows, b1))) == ComputeThresholds(Scores(LatestSnapshot(rows, b2)))
  {
    var s1, s2 := LatestSnapshot(rows, b1), LatestSnapshot(rows, b2);
    assert rows[0].instrument in Instruments(rows);
    SnapshotsHoldSameRows(rows, s1, s2);
    ScoresOfPermutation(s1, s2);
    ThresholdsOfPermutation(Scores(s1), Scores(s2));
  }
}

=== FILE: normalize.dfy ===
/** Schema normalisation: the pipeline halts when no row has a usable week (app.py:23-27). */
module Normalize {
  import opened Wrappers
  import opened Table

  /** True when at least one row carries a parsed week. */
  function AnyParsed(rows: seq<Row>): (b: bool)
    ensures b <==> exists i :: 0 <= i < |rows| && rows[i].week.Some?
  {
    if |rows| == 0 then false
    else
      var rest := AnyParsed(rows[1..]);
      assert rest ==> exists i :: 0 <= i < |rows| && rows[i].week.Some? by {
        if rest {
          var i :| 0 <= i < |rows[1..]| && rows[1..][i].week.Some?;
          assert rows[i + 1].week.Some?;
        }
      }
      rows[0].week.Some? || rest
  }

  /** `df["week"].isna().all()`: halt with an error when every week is unparsed, which
      includes the empty table; otherwise keep every row, unparsed ones too. */
  function CheckWeeks(rows: seq<Row>): (r: Result<seq<Row>, Error>)
    ensures r.Failure? <==> forall i :: 0 <= i < |rows| ==> rows[i].week.None?
    ensures r.Failure? ==> r.error == WeekColumnUnparsed
    ensures r.Success? ==> r.value == rows && |rows| > 0
  {
    if AnyParsed(rows) then Success(rows) else Failure(WeekColumnUnparsed)
  }
}

=== FILE: scenarios.dfy ===
/** Concrete scenarios the dashboard is expected to handle, stated on the model. */
module Scenarios {
  import opened Wrappers
  import opened Seqs
  import opened Table
  import opened Normalize
  import opened Snapshot
  import opened Bands
  import opened Views

  /** A table column that failed to parse everywhere halts the pipeline. */
  lemma UnparsedWeeksHalt()
    ensures CheckWeeks([Row("A", None, 1.0, 1.0, 50.0), Row("B", None, 2.0, 2.0, 50.0)]) == Failure(WeekColumnUnparsed)
    ensures CheckWeeks([]) == Failure(WeekColumnUnparsed)
  {
  }

  /** The scores 10, 20, ..., 100 of ten instruments. */
  function TenScores(): (xs: seq<real>)
    ensures |xs| == 10
    ensures forall i :: 0 <= i < 10 ==> xs[i] == 10.0 * (i + 1) as real
  {
    seq(10, i requires 0 <= i < 10 => 10.0 * (i + 1) as real)
  }

  /** Scores 10, 20, ..., 100: the thresholds interpolate to 77.5, 91 and 95.5, so only
      the top instrument is "Hard Review" and 90 is "Monitor". */
  lemma TenScoresThresholds()
    ensures ComputeThresholds(TenScores()) == Thresholds(77.5, 91.0, 95.5)
    ensures AssignBand(100.0, Thresholds(77.5, 91.0, 95.5)) == HardReview
    ensures AssignBand(90.0, Thresholds(77.5, 91.0, 95.5)) == Monitor
  {
    var xs := TenScores();
    assert Pairwise(xs, RealLe);
    QuantileOfSorted(xs, 0.75);
    QuantileOfSorted(xs, 0.90);
    QuantileOfSorted(xs, 0.95);
    assert VirtualIndex(10, 0.75) == 6.75;
    assert Below(10, 6.75) == 6 && Above(10, 6.75) == 7;
    assert InterpolateAt(xs, 6.75) == Lerp(70.0, 80.0, 0.75) == 77.5;
    assert VirtualIndex(10, 0.90) == 8.1;
    assert Below(10, 8.1) == 8 && Above(10, 8.1) == 9;
    assert InterpolateAt(xs, 8.1) == Lerp(90.0, 100.0, 0.1) == 91.0;
    assert VirtualIndex(10, 0.95) == 8.55;
    assert Below(10, 8.55) == 8 && Above(10, 8.55) == 9;
    assert InterpolateAt(xs, 8.55) == Lerp(90.0, 100.0, 0.55) == 95.5;
  }

  /** `n` consecutive weekly rows of one instrument, from day 0. */
  function Weekly(inst: string, n: nat): (rows: seq<Row>)
    ensures |rows| == n
    ensures forall i :: 0 <= i < n ==> rows[i].instrument == inst && rows[i].week == Some(7 * i)
  {
    seq(n, i requires 0 <= i < n => Row(inst, Some(7 * i), i as real, i as real, 50.0))
  }

  lemma WeeklyIsOneInstrument(inst: string, n: nat)
    ensures OfInstrument(Weekly(inst, n), inst) == Weekly(inst, n)
  {
    var a := Weekly(inst, n);
    assert forall x :: x in a ==> IsOf(inst)(x);
    FilterAll(a, IsOf(inst));
  }

  lemma WeeklyIsSorted(inst: string, n: nat)
    ensures Pairwise(Weekly(inst, n), RowWeekLe)
  {
    var a := Weekly(inst, n);
    forall i, j | 0 <= i < j < n ensures RowWeekLe(a[i], a[j]) {
      assert a[i].week == Some(7 * i) && a[j].week == Some(7 * j);
    }
  }

  lemma WeeklyLatest(inst: string, n: nat)
    requires 0 < n
    ensures MaxWeek(Weekly(inst, n)) == Some(7 * (n - 1))
  {
    var a := Weekly(inst, n);
    var m := MaxWeek(a);
    assert a[n - 1] in a && a[n - 1].week == Some(7 * (n - 1));
    assert m.Some? && 7 * (n - 1) <= m.value;
    var x :| x in a && x.week == m;
    var i :| 0 <= i < n && a[i] == x;
    assert m.value == 7 * i <= 7 * (n - 1);
  }

  /** The drilldown of a weekly history keeps the rows on or after its last week minus
      eight weeks. */
  lemma RecentOfWeekly(inst: string, n: nat)
    requires 0 < n
    ensures Recent(Weekly(inst, n)) == Filter(Weekly(inst, n), OnOrAfter(Some(7 * (n - 1) - WindowDays)))
  {
    var a := Weekly(inst, n);
    WeeklyIsSorted(inst, n);
    WeeklyLatest(inst, n);
    RecentOfSorted(a, Some(7 * (n - 1) - WindowDays));
  }

  /** A cutoff at day 7 drops only the first row of a weekly history. */
  lemma CutoffDropsFirstWeek(inst: string, n: nat)
    requires 0 < n
    ensures Filter(Weekly(inst, n), OnOrAfter(Some(7))) == Weekly(inst, n)[1..]
  {
    var a := Weekly(inst, n);
    var keep := OnOrAfter(Some(7));
    assert a == [a[0]] + a[1..];
    assert !keep(a[0]);
    assert Filter(a, keep) == Filter(a[1..], keep);
    forall x | x in a[1..] ensures keep(x) {
      var i :| 0 <= i < n - 1 && a[1..][i] == x;
      assert x == a[i + 1];
    }
    FilterAll(a[1..], keep);
  }

  /** Instrument A with ten weekly rows and B with five: A's window is its last nine
      rows, because the eight-week cutoff is inclusive, and B plays no part. */
  lemma DrilldownKeepsNineOfTen(instA: string, instB: string)
    requires instA != instB
    ensures Window(Weekly(instA, 10) + Weekly(instB, 5), instA) == Weekly(instA, 10)[1..]
  {
    var a, b := Weekly(instA, 10), Weekly(instB, 5);
    WindowIgnoresOtherInstruments(a, b, instA);
    WeeklyIsOneInstrument(instA, 10);
    RecentOfWeekly(instA, 10);
    assert Window(a, instA) == Filter(a, OnOrAfter(Some(7)));
    CutoffDropsFirstWeek(instA, 10);
  }

  /** `pct_system` 70 gives the attribution System 70, Market 30. */
  lemma SeventyThirtySplit()
    ensures Attribute([Row("A", Some(0), 1.0, 1.0, 70.0)], "A") == Success(Attribution(70.0, 30.0))
  {
    AttributionOfOnlyRow([Row("A", Some(0), 1.0, 1.0, 70.0)], Row("A", Some(0), 1.0, 1.0, 70.0));
  }

  /** Two rows of "A" share a week: both sort orders are admissible, and each keeps a
      different row, so the snapshot leaves the tie-break open. */
  lemma EqualWeeksLeaveTieOpen()
    ensures IsWeekOrdering([Row("A", Some(7), 1.0, 1.0, 50.0), Row("A", Some(7), 2.0, 2.0, 50.0)],
                           [Row("A", Some(7), 1.0, 1.0, 50.0), Row("A", Some(7), 2.0, 2.0, 50.0)])
    ensures IsWeekOrdering([Row("A", Some(7), 1.0, 1.0, 50.0), Row("A", Some(7), 2.0, 2.0, 50.0)],
                           [Row("A", Some(7), 2.0, 2.0, 50.0), Row("A", Some(7), 1.0, 1.0, 50.0)])
    ensures LastPerInstrument([Row("A", Some(7), 1.0, 1.0, 50.0), Row("A", Some(7), 2.0, 2.0, 50.0)])
         != LastPerInstrument([Row("A", Some(7), 2.0, 2.0, 50.0), Row("A", Some(7), 1.0, 1.0, 50.0)])
  {
    var r1, r2 := Row("A", Some(7), 1.0, 1.0, 50.0), Row("A", Some(7), 2.0, 2.0, 50.0);
    assert [r1, r2][1..] == [r2] && [r2, r1][1..] == [r1];
    assert LastPerInstrument([r2]) == [r2] && LastPerInstrument([r1]) == [r1];
    assert "A" in Instruments([r2]) && "A" in Instruments([r1]);
    assert multiset([r1, r2]) == multiset([r2, r1]);
  }
}

=== FILE: seqs.dfy ===
/** Generic sequence tools: order predicates, filtering and a sort by a key order. */
module Seqs {

  /** `le` is total and transitive, so sorting by it is meaningful. */
  ghost predicate TotalPreorder<T(!new)>(le: (T, T) -> bool)
  {
    && (forall a, b :: le(a, b) || le(b, a))
    && (forall a, b, c :: le(a, b) && le(b, c) ==> le(a, c))
  }

  ghost predicate Symmetric<T(!new)>(rel: (T, T) -> bool)
  {
    forall a, b :: rel(a, b) ==> rel(b, a)
  }

  /** Every earlier element stands in `rel` to every later one.
      With an order `le`, `Pairwise(s, le)` says that `s` is sorted by `le`. */
  predicate Pairwise<T>(s: seq<T>, rel: (T, T) -> bool)
  {
    forall i, j :: 0 <= i < j < |s| ==> rel(s[i], s[j])
  }

  /** An element related to everything after it extends a pairwise-related sequence. */
  lemma PairwiseCons<T>(x: T, t: seq<T>, rel: (T, T) -> bool)
    requires Pairwise(t, rel)
    requires forall y :: y in t ==> rel(x, y)
    ensures Pairwise([x] + t, rel)
  {
    var r := [x] + t;
    forall i, j | 0 <= i < j < |r| ensures rel(r[i], r[j]) {
      assert r[j] == t[j - 1];
      if 0 < i {
        assert r[i] == t[i - 1];
      }
    }
  }

  /** Taking the element at `k` out of a sequence takes one copy of it out of its multiset. */
  lemma MultisetWithout<T>(s: seq<T>, k: int)
    requires 0 <= k < |s|
    ensures multiset(s[..k] + s[k + 1..]) == multiset(s) - multiset{s[k]}
  {
    assert s == s[..k] + [s[k]] + s[k + 1..];
  }

  /** The elements of `s` that satisfy `p`, in their original order. */
  function Filter<T(!new)>(s: seq<T>, p: T -> bool): (r: seq<T>)
    ensures |r| <= |s|
    ensures forall x :: x in r <==> x in s && p(x)
    ensures forall x :: multiset(r)[x] == if p(x) then multiset(s)[x] else 0
  {
    if |s| == 0 then []
    else
      assert s == [s[0]] + s[1..];
      if p(s[0]) then [s[0]] + Filter(s[1..], p) else Filter(s[1..], p)
  }

  lemma {:induction false} FilterKeepsPairwise<T(!new)>(s: seq<T>, p: T -> bool, rel: (T, T) -> bool)
    requires Pairwise(s, rel)
    ensures Pairwise(Filter(s, p), rel)
  {
    if |s| > 0 {
      var t := Filter(s[1..], p);
      FilterKeepsPairwise(s[1..], p, rel);
      if p(s[0]) {
        forall y | y in t ensures rel(s[0], y) {
          var k :| 0 <= k < |s[1..]| && s[1..][k] == y;
          assert s[k + 1] == y;
        }
        PairwiseCons(s[0], t, rel);
        assert Filter(s, p) == [s[0]] + t;
      }
    }
  }

  /** Filtering keeps a sequence whose every element passes. */
  lemma {:induction false} FilterAll<T(!new)>(s: seq<T>, p: T -> bool)
    requires forall x :: x in s ==> p(x)
    ensures Filter(s, p) == s
  {
    if |s| > 0 {
      FilterAll(s[1..], p);
      assert s == [s[0]] + s[1..];
    }
  }

  /** Filtering distributes over concatenation. */
  lemma {:induction false} FilterAppend<T(!new)>(a: seq<T>, b: seq<T>, p: T -> bool)
    ensures Filter(a + b, p) == Filter(a, p) + Filter(b, p)
  {
    if |a| > 0 {
      assert (a + b)[1..] == a[1..] + b;
      FilterAppend(a[1..], b, p);
    } else {
      assert a + b == b;
    }
  }

  /** Inserts `x` before the first element it does not sort after. */
  function Insert<T(!new)>(x: T, s: seq<T>, le: (T, T) -> bool): (r: seq<T>)
    requires TotalPreorder(le)
    requires Pairwise(s, le)
    ensures multiset(r) == multiset(s) + multiset{x}
    ensures Pairwise(r, le)
  {
    if |s| == 0 then [x]
    else if le(x, s[0]) then
      assert forall j :: 0 < j < |s| ==> le(s[0], s[j]);
      [x] + s
    else
      assert s == [s[0]] + s[1..];
      var t := Insert(x, s[1..], le);
      assert forall y :: y in t ==> y == x || y in s[1..] by {
        forall y | y in t ensures y == x || y in s[1..] {
          assert y in multiset(t);
        }
      }
      assert forall y :: y in t ==> le(s[0], y) by {
        forall y | y in t ensures le(s[0], y) {
          if y != x {
            var k :| 0 <= k < |s[1..]| && s[1..][k] == y;
            assert s[k + 1] == y;
          }
        }
      }
      PairwiseCons(s[0], t, le);
      [s[0]] + t
  }

  /** A sort of `s` by the order `le` (insertion sort; equal elements keep their order). */
  function SortBy<T(!new)>(s: seq<T>, le: (T, T) -> bool): (r: seq<T>)
    requires TotalPreorder(le)
    ensures multiset(r) == multiset(s)
    ensures Pairwise(r, le)
  {
    if |s| == 0 then []
    else
      assert s == [s[0]] + s[1..];
      Insert(s[0], SortBy(s[1..], le), le)
  }

  /** Sorting a sequence that is already sorted leaves it unchanged. */
  lemma {:induction false} SortBySorted<T(!new)>(s: seq<T>, le: (T, T) -> bool)
    requires TotalPreorder(le)
    requires Pairwise(s, le)
    ensures SortBy(s, le) == s
  {
    if |s| > 0 {
      SortBySorted(s[1..], le);
      assert s == [s[0]] + s[1..];
    }
  }

  /** Inserting keeps a symmetric pairwise relation that `x` has with every element. */
  lemma {:induction false} InsertKeepsPairwise<T(!new)>(x: T, s: seq<T>, le: (T, T) -> bool, rel: (T, T) -> bool)
    requires TotalPreorder(le) && Pairwise(s, le)
    requires Symmetric(rel)
    requires Pairwise(s, rel)
    requires forall y :: y in s ==> rel(x, y)
    ensures Pairwise(Insert(x, s, le), rel)
  {
    if |s| > 0 && !le(x, s[0]) {
      var t := Insert(x, s[1..], le);
      assert forall y :: y in s[1..] ==> rel(x, y);
      InsertKeepsPairwise(x, s[1..], le, rel);
      forall y | y in t ensures rel(s[0], y) {
        assert y in multiset(t);
        if y == x {
          assert rel(x, s[0]);
        } else {
          var k :| 0 <= k < |s[1..]| && s[1..][k] == y;
          assert s[k + 1] == y;
        }
      }
      assert Insert(x, s, le) == [s[0]] + t;
    }
  }

  /** Sorting keeps a symmetric pairwise relation, such as "distinct". */
  lemma {:induction false} SortKeepsPairwise<T(!new)>(s: seq<T>, le: (T, T) -> bool, rel: (T, T) -> bool)
    requires TotalPreorder(le)
    requires Symmetric(rel)
    requires Pairwise(s, rel)
    ensures Pairwise(SortBy(s, le), rel)
  {
    if |s| > 0 {
      var t := SortBy(s[1..], le);
      SortKeepsPairwise(s[1..], le, rel);
      forall y | y in t ensures rel(s[0], y) {
        assert y in multiset(t);
        var k :| 0 <= k < |s[1..]| && s[1..][k] == y;
        assert s[k + 1] == y;
      }
      InsertKeepsPairwise(s[0], t, le, rel);
    }
  }
}

=== FILE: snapshot.dfy ===
/** Latest-snapshot selection: one row per instrument, the one with the greatest week (app.py:36-41). */
module Snapshot {
  import opened Seqs
  import opened Table

  /** `byWeek` is an outcome of `df.sort_values("week")`: a permutation of `rows` in week
      order with unparsed weeks last. pandas sorts with an unstable quicksort, so rows of
      equal week may come in any order; every such ordering is admitted. */
  predicate IsWeekOrdering(rows: seq<Row>, byWeek: seq<Row>)
  {
    multiset(byWeek) == multiset(rows) && Pairwise(byWeek, RowWeekLe)
  }

  /** What the latest snapshot promises: one row per distinct instrument, each taken from
      the table, whose week is not before any week of its instrument (an unparsed week
      counts as after every date). */
  ghost predicate IsLatestSnapshot(rows: seq<Row>, snap: seq<Row>)
  {
    && DistinctInstruments(snap)
    && Instruments(snap) == Instruments(rows)
    && (forall x :: x in snap ==> x in rows)
    && (forall x, y :: x in snap && y in rows && y.instrument == x.instrument ==> WeekLe(y.week, x.week))
  }

  /** Position `i` holds the last row of its instrument: no later row has the same
      instrument. */
  predicate IsLastOf(s: seq<Row>, i: int)
  {
    0 <= i < |s| && forall j :: i < j < |s| ==> s[j].instrument != s[i].instrument
  }

  /** A position past the head is last in `s` exactly when it is last in the tail. */
  lemma LastOfTail(s: seq<Row>)
    requires 0 < |s|
    ensures forall k :: 0 <= k < |s| - 1 ==> (IsLastOf(s[1..], k) <==> IsLastOf(s, k + 1))
  {
    forall k | 0 <= k < |s| - 1 ensures IsLastOf(s[1..], k) <==> IsLastOf(s, k + 1) {
      assert forall j :: k < j < |s| - 1 ==> s[1..][j] == s[j + 1];
      if IsLastOf(s[1..], k) {
        forall j | k + 1 < j < |s| ensures s[j].instrument != s[k + 1].instrument {
          assert s[j] == s[1..][j - 1];
        }
      }
    }
  }

  /** The head is last of its instrument exactly when the tail does not hold that instrument. */
  lemma LastOfHead(s: seq<Row>)
    requires 0 < |s|
    ensures IsLastOf(s, 0) <==> s[0].instrument !in Instruments(s[1..])
  {
    if s[0].instrument in Instruments(s[1..]) {
      var y :| y in s[1..] && y.instrument == s[0].instrument;
      var k :| 0 <= k < |s[1..]| && s[1..][k] == y;
      assert s[k + 1] == y;
    } else {
      forall j | 0 < j < |s| ensures s[j].instrument != s[0].instrument {
        assert s[j] in s[1..];
      }
    }
  }

  /** `r` holds exactly the rows of `s` that are last of their instrument, one per
      instrument. */
  ghost predicate LastRowsOf(s: seq<Row>, r: seq<Row>)
  {
    && (forall x :: x in r ==> exists i :: IsLastOf(s, i) && s[i] == x)
    && (forall i :: IsLastOf(s, i) ==> s[i] in r)
    && Instruments(r) == Instruments(s)
    && DistinctInstruments(r)
  }

  /** The rows of the tail that are last of their instrument are last in `s` too. */
  lemma TailRowsStayLast(s: seq<Row>, t: seq<Row>)
    requires 0 < |s| && LastRowsOf(s[1..], t)
    ensures forall x :: x in t ==> exists i :: IsLastOf(s, i) && s[i] == x
    ensures forall i :: 0 < i && IsLastOf(s, i) ==> s[i] in t
  {
    LastOfTail(s);
    forall x | x in t ensures exists i :: IsLastOf(s, i) && s[i] == x {
      var k :| IsLastOf(s[1..], k) && s[1..][k] == x;
      assert IsLastOf(s, k + 1);
    }
  }

  /** A head whose instrument recurs is dropped: the last rows of the tail are those of `s`. */
  lemma LastRowsDropHead(s: seq<Row>, t: seq<Row>)
    requires 0 < |s| && LastRowsOf(s[1..], t)
    requires s[0].instrument in Instruments(s[1..])
    ensures LastRowsOf(s, t)
  {
    InstrumentsOfCons(s);
    TailRowsStayLast(s, t);
    LastOfHead(s);
  }

  /** A head whose instrument does not recur is kept in front of the last rows of the tail. */
  lemma LastRowsKeepHead(s: seq<Row>, t: seq<Row>)
    requires 0 < |s| && LastRowsOf(s[1..], t)
    requires s[0].instrument !in Instruments(s[1..])
    ensures LastRowsOf(s, [s[0]] + t)
  {
    var r := [s[0]] + t;
    InstrumentsOfCons(s);
    InstrumentsOfCons(r);
    assert r[1..] == t;
    TailRowsStayLast(s, t);
    LastOfHead(s);
    assert forall x :: x in r ==> exists i :: IsLastOf(s, i) && s[i] == x;
    assert DistinctInstruments(r) by {
      forall i, j | 0 <= i < j < |r| ensures r[i].instrument != r[j].instrument {
        if i == 0 {
          assert r[j] in t;
        } else {
          assert r[i] == t[i - 1] && r[j] == t[j - 1];
        }
      }
    }
  }

  /** `groupby("Instrument").tail(1)`: keep each row after which no row of the same
      instrument follows, in their original order. */
  function LastPerInstrument(s: seq<Row>): (r: seq<Row>)
    ensures forall x :: x in r ==> exists i :: IsLastOf(s, i) && s[i] == x
    ensures forall i :: IsLastOf(s, i) ==> s[i] in r
    ensures Instruments(r) == Instruments(s)
    ensures DistinctInstruments(r)
  {
    if |s| == 0 then []
    else
      var t := LastPerInstrument(s[1..]);
      if s[0].instrument in Instruments(s[1..]) then
        LastRowsDropHead(s, t);
        t
      else
        LastRowsKeepHead(s, t);
        [s[0]] + t
  }

  /** On a week-ordered sequence, the row kept for an instrument has its greatest week. */
  lemma LastPerInstrumentIsLatest(s: seq<Row>)
    requires Pairwise(s, RowWeekLe)
    ensures forall x, y :: x in LastPerInstrument(s) && y in s && y.instrument == x.instrument ==> WeekLe(y.week, x.week)
  {
    forall x, y | x in LastPerInstrument(s) && y in s && y.instrument == x.instrument
      ensures WeekLe(y.week, x.week)
    {
      var i :| IsLastOf(s, i) && s[i] == x;
      var k :| 0 <= k < |s| && s[k] == y;
      if k != i {
        assert k < i;
        assert RowWeekLe(s[k], s[i]);
      }
    }
  }

  /** Lines 36-41: the latest snapshot taken from one admissible week ordering. Whatever
      order the sort gives rows of equal week, the result meets `IsLatestSnapshot`. */
  function LatestSnapshot(rows: seq<Row>, byWeek: seq<Row>): (snap: seq<Row>)
    requires IsWeekOrdering(rows, byWeek)
    ensures IsLatestSnapshot(rows, snap)
    ensures |snap| == |Instruments(rows)|
  {
    var snap := LastPerInstrument(byWeek);
    LastPerInstrumentIsLatest(byWeek);
    assert forall x :: x in byWeek <==> x in rows by {
      forall x ensures x in byWeek <==> x in rows {
        assert x in byWeek <==> x in multiset(byWeek);
        assert x in rows <==> x in multiset(rows);
      }
    }
    assert Instruments(byWeek) == Instruments(rows);
    DistinctInstrumentsCount(snap);
    snap
  }

  /** Every instrument of the table has exactly one row in the snapshot. */
  lemma OneRowPerInstrument(rows: seq<Row>, snap: seq<Row>, inst: string)
    requires IsLatestSnapshot(rows, snap)
    requires inst in Instruments(rows)
    ensures exists i :: 0 <= i < |snap| && snap[i].instrument == inst
    ensures forall i, j :: 0 <= i < |snap| && 0 <= j < |snap| && snap[i].instrument == inst && snap[j].instrument == inst ==> i == j
  {
    assert inst in Instruments(snap);
    var x :| x in snap && x.instrument == inst;
    var i :| 0 <= i < |snap| && snap[i] == x;
  }

  /** An unparsed week sorts after every date, so an instrument with an unparsed row
      is represented by an unparsed row. */
  lemma UndatedRowWins(rows: seq<Row>, snap: seq<Row>, x: Row, y: Row)
    requires IsLatestSnapshot(rows, snap)
    requires x in snap && y in rows && y.instrument == x.instrument
    requires y.week.None?
    ensures x.week.None?
  {
  }

  /** Two admissible snapshots choose rows of the same week for every instrument; when
      an instrument's parsed weeks are unique, they choose the very same dated row. */
  lemma SnapshotsAgree(rows: seq<Row>, s1: seq<Row>, s2: seq<Row>, x: Row, y: Row)
    requires IsLatestSnapshot(rows, s1) && IsLatestSnapshot(rows, s2)
    requires x in s1 && y in s2 && x.instrument == y.instrument
    ensures x.week == y.week
    ensures Pairwise(rows, UniqueWeekPair) && x.week.Some? ==> x == y
  {
    assert WeekLe(x.week, y.week) && WeekLe(y.week, x.week);
    if Pairwise(rows, UniqueWeekPair) && x.week.Some? && x != y {
      var i :| 0 <= i < |rows| && rows[i] == x;
      var j :| 0 <= j < |rows| && rows[j] == y;
      if i < j {
        assert UniqueWeekPair(rows[i], rows[j]);
      } else {
        assert UniqueWeekPair(rows[j], rows[i]);
      }
    }
  }

  /** The instrument and the week identify a row: two rows that agree on both are equal. */
  ghost predicate KeysDetermineRows(rows: seq<Row>)
  {
    forall x, y :: x in rows && y in rows && x.instrument == y.instrument && x.week == y.week ==> x == y
  }

  /** When the instrument and the week identify a row, every admissible snapshot holds
      the same rows, whatever order the sort gave rows of equal week. */
  lemma SnapshotsHoldSameRows(rows: seq<Row>, s1: seq<Row>, s2: seq<Row>)
    requires IsLatestSnapshot(rows, s1) && IsLatestSnapshot(rows, s2)
    requires KeysDetermineRows(rows)
    ensures multiset(s1) == multiset(s2)
  {
    forall x | x in s1 ensures x in s2 {
      assert x.instrument in Instruments(s2);
      var y :| y in s2 && y.instrument == x.instrument;
      SnapshotsAgree(rows, s1, s2, x, y);
    }
    forall y | y in s2 ensures y in s1 {
      assert y.instrument in Instruments(s1);
      var x :| x in s1 && x.instrument == y.instrument;
      SnapshotsAgree(rows, s1, s2, x, y);
    }
    DistinctRowsOnce(s1);
    DistinctRowsOnce(s2);
  }
}

=== FILE: table.dfy ===
/** The observation table: one row per instrument and week, as loaded and normalised. */
module Table {
  import opened Wrappers
  import opened Seqs

  /** One observation. `week` is a day number; `None` marks a date that failed to parse
      (pandas' NaT). The three scores are precomputed upstream and only read here. */
  datatype Row = Row(instrument: string, week: Option<int>, risk8w: real, weekly: real, pctSystem: real)

  /** The two ways the pipeline can halt: the week column is unusable, or the
      selected instrument has no row in the latest snapshot. */
  datatype Error = WeekColumnUnparsed | NoSnapshotRow(instrument: string)

  /** Week order as pandas sorts dates: ascending, with an unparsed week after every date. */
  predicate WeekLe(a: Option<int>, b: Option<int>)
  {
    match (a, b)
    case (_, None) => true
    case (None, Some(_)) => false
    case (Some(x), Some(y)) => x <= y
  }

  predicate RowWeekLe(a: Row, b: Row)
  {
    WeekLe(a.week, b.week)
  }

  lemma RowWeekLeIsTotalPreorder()
    ensures TotalPreorder(RowWeekLe)
  {
  }

  /** One outcome of `sort_values("week")`: the rows in week order, unparsed weeks last.
      (Insertion sort; pandas' quicksort may order rows of equal week differently.) */
  function SortByWeek(rows: seq<Row>): (r: seq<Row>)
    ensures multiset(r) == multiset(rows)
    ensures Pairwise(r, RowWeekLe)
  {
    RowWeekLeIsTotalPreorder();
    SortBy(rows, RowWeekLe)
  }

  /** The distinct instrument names occurring in `rows`. */
  function Instruments(rows: seq<Row>): set<string>
  {
    set r | r in rows :: r.instrument
  }

  /** No instrument occurs twice. */
  predicate DistinctInstruments(rows: seq<Row>)
  {
    forall i, j :: 0 <= i < j < |rows| ==> rows[i].instrument != rows[j].instrument
  }

  /** With no instrument repeated, every row occurs exactly once. */
  lemma {:induction false} DistinctRowsOnce(rows: seq<Row>)
    requires DistinctInstruments(rows)
    ensures forall x :: multiset(rows)[x] == if x in rows then 1 else 0
  {
    if 0 < |rows| {
      var t := rows[1..];
      assert rows == [rows[0]] + t;
      assert DistinctInstruments(t);
      DistinctRowsOnce(t);
    }
  }

  /** Two rows of one instrument do not carry the same parsed week. */
  predicate UniqueWeekPair(a: Row, b: Row)
  {
    a.instrument == b.instrument && a.week.Some? && b.week.Some? ==> a.week != b.week
  }

  /** The row test `df["Instrument"] == inst`. */
  function IsOf(inst: string): Row -> bool
  {
    (x: Row) => x.instrument == inst
  }

  /** The rows of one instrument, in table order. */
  function OfInstrument(rows: seq<Row>, inst: string): (r: seq<Row>)
    ensures forall x :: x in r <==> x in rows && x.instrument == inst
    ensures forall x :: multiset(r)[x] == if x.instrument == inst then multiset(rows)[x] else 0
  {
    Filter(rows, IsOf(inst))
  }

  /** The instruments of a non-empty table: the first row's and those of the rest. */
  lemma InstrumentsOfCons(rows: seq<Row>)
    requires 0 < |rows|
    ensures Instruments(rows) == {rows[0].instrument} + Instruments(rows[1..])
  {
    forall n | n in Instruments(rows) ensures n in {rows[0].instrument} + Instruments(rows[1..]) {
      var x :| x in rows && x.instrument == n;
      var k :| 0 <= k < |rows| && rows[k] == x;
      if k > 0 {
        assert rows[1..][k - 1] == x;
      }
    }
    forall n | n in Instruments(rows[1..]) ensures n in Instruments(rows) {
      var x :| x in rows[1..] && x.instrument == n;
      assert x in rows;
    }
  }

  /** A sequence with no repeated instrument has as many rows as instruments. */
  lemma {:induction false} DistinctInstrumentsCount(rows: seq<Row>)
    requires DistinctInstruments(rows)
    ensures |Instruments(rows)| == |rows|
  {
    if |rows| > 0 {
      var t := rows[1..];
      assert DistinctInstruments(t);
      DistinctInstrumentsCount(t);
      InstrumentsOfCons(rows);
      assert rows[0].instrument !in Instruments(t) by {
        forall x | x in t ensures x.instrument != rows[0].instrument {
          var k :| 0 <= k < |t| && t[k] == x;
          assert rows[k + 1] == x;
        }
      }
    }
  }
}

=== FILE: views.dfy ===
/** The views over the classified snapshot: ranking (app.py:86), drilldown window
    (app.py:117-129) and system/market attribution (app.py:189-192). */
module Views {
  import opened Wrappers
  import opened Seqs
  import opened Table
  import opened Bands

  predicate RiskAtLeast(a: Classified, b: Classified)
  {
    a.row.risk8w >= b.row.risk8w
  }

  lemma RiskAtLeastIsTotalPreorder()
    ensures TotalPreorder(RiskAtLeast)
  {
  }

  /** Line 86: the classified snapshot ordered by `execution_risk_8w`, highest first. Ties
      may come in any order in pandas; this ordering is one of the admissible ones. */
  function Rank(cs: seq<Classified>): (r: seq<Classified>)
    ensures multiset(r) == multiset(cs)
    ensures Pairwise(r, RiskAtLeast)
  {
    RiskAtLeastIsTotalPreorder();
    SortBy(cs, RiskAtLeast)
  }

  /** The first row of the ranking has the top score, so it is always "Hard Review". */
  lemma RankingHeadIsHardReview(snap: seq<Row>)
    requires 0 < |snap|
    ensures 0 < |Rank(Classify(snap, ComputeThresholds(Scores(snap))))|
    ensures Rank(Classify(snap, ComputeThresholds(Scores(snap))))[0].band == HardReview
  {
    var cs := Classify(snap, ComputeThresholds(Scores(snap)));
    var ranking := Rank(cs);
    assert |ranking| == |multiset(cs)| == |cs|;
    var top := ranking[0];
    assert top in multiset(cs);
    var i :| 0 <= i < |cs| && cs[i] == top;
    forall j | 0 <= j < |snap|
      ensures snap[j].risk8w <= snap[i].risk8w
    {
      assert cs[j] in multiset(ranking);
      var k :| 0 <= k < |ranking| && ranking[k] == cs[j];
      if k > 0 {
        assert RiskAtLeast(ranking[0], ranking[k]);
      }
    }
    TopScoreIsHardReview(snap, i);
  }

  /** `pd.Timedelta(weeks=8)` in days. */
  const WindowDays: int := 56

  /** `Series.max()` of a week column: the greatest parsed week; unparsed weeks are
      skipped, and a column with no parsed week gives `None` (NaT). */
  function MaxWeek(rows: seq<Row>): (m: Option<int>)
    ensures m.None? <==> forall x :: x in rows ==> x.week.None?
    ensures m.Some? ==> exists x :: x in rows && x.week == m
    ensures m.Some? ==> forall x :: x in rows && x.week.Some? ==> x.week.value <= m.value
  {
    if |rows| == 0 then None
    else
      assert rows == [rows[0]] + rows[1..];
      var rest := MaxWeek(rows[1..]);
      match rows[0].week
      case None => rest
      case Some(w) => if rest.Some? && rest.value > w then rest else Some(w)
  }

  /** The test `week >= cutoff`; a comparison involving NaT is false. */
  function OnOrAfter(cutoff: Option<int>): Row -> bool
  {
    (x: Row) => x.week.Some? && cutoff.Some? && x.week.value >= cutoff.value
  }

  /** The row's week lies in the eight weeks up to and including the latest parsed
      week of `own`. */
  predicate WithinEightWeeks(own: seq<Row>, x: Row)
  {
    var m := MaxWeek(own);
    x.week.Some? && m.Some? && m.value - WindowDays <= x.week.value <= m.value
  }

  /** `max - 8 weeks`; NaT when the maximum is NaT. */
  function Cutoff(m: Option<int>): Option<int>
  {
    if m.Some? then Some(m.value - WindowDays) else None
  }

  /** Two sequences holding the same rows have the same latest week. */
  lemma SameRowsSameMaxWeek(a: seq<Row>, b: seq<Row>)
    requires multiset(a) == multiset(b)
    ensures MaxWeek(a) == MaxWeek(b)
  {
    assert forall x :: x in a <==> x in b by {
      forall x ensures x in a <==> x in b {
        assert x in a <==> x in multiset(a);
        assert x in b <==> x in multiset(b);
      }
    }
    var ma, mb := MaxWeek(a), MaxWeek(b);
    if ma.Some? && mb.Some? {
      var x :| x in a && x.week == ma;
      var y :| y in b && y.week == mb;
      assert ma.value <= mb.value && mb.value <= ma.value;
    }
  }

  /** Cutting any reordering of `own` at its eight-week cutoff keeps exactly the rows
      within eight weeks of its latest week, each as often as in `own`. */
  lemma CutoffKeepsWindow(own: seq<Row>, history: seq<Row>)
    requires multiset(history) == multiset(own)
    ensures forall x :: multiset(Filter(history, OnOrAfter(Cutoff(MaxWeek(own)))))[x]
                        == if WithinEightWeeks(own, x) then multiset(own)[x] else 0
  {
    var w := Filter(history, OnOrAfter(Cutoff(MaxWeek(own))));
    forall x ensures multiset(w)[x] == if WithinEightWeeks(own, x) then multiset(own)[x] else 0 {
      if x in own {
        assert x in multiset(own);
      }
    }
  }

  /** Lines 119-129 on one instrument's rows: sort by week, then keep the rows on or
      after the latest week minus eight weeks. */
  function Recent(own: seq<Row>): (w: seq<Row>)
    ensures Pairwise(w, RowWeekLe)
    ensures forall x :: multiset(w)[x] == if WithinEightWeeks(own, x) then multiset(own)[x] else 0
  {
    var history := SortByWeek(own);
    var cutoff := Cutoff(MaxWeek(history));
    FilterKeepsPairwise(history, OnOrAfter(cutoff), RowWeekLe);
    SameRowsSameMaxWeek(history, own);
    CutoffKeepsWindow(own, history);
    Filter(history, OnOrAfter(cutoff))
  }

  /** Rows already in week order are not reordered: the drilldown only cuts them at
      their own cutoff `c`. */
  lemma RecentOfSorted(own: seq<Row>, c: Option<int>)
    requires Pairwise(own, RowWeekLe)
    requires c == Cutoff(MaxWeek(own))
    ensures Recent(own) == Filter(own, OnOrAfter(c))
  {
    RowWeekLeIsTotalPreorder();
    SortBySorted(own, RowWeekLe);
  }

  /** The drilldown keeps any symmetric relation its input rows have pairwise. */
  lemma RecentKeepsPairwise(own: seq<Row>, rel: (Row, Row) -> bool)
    requires Symmetric(rel) && Pairwise(own, rel)
    ensures Pairwise(Recent(own), rel)
  {
    var history := SortByWeek(own);
    var cutoff := Cutoff(MaxWeek(history));
    RowWeekLeIsTotalPreorder();
    SortKeepsPairwise(own, RowWeekLe, rel);
    FilterKeepsPairwise(history, OnOrAfter(cutoff), rel);
  }

  /** What the drilldown promises: the row belongs to the selected instrument and lies
      in the eight weeks up to that instrument's own latest week. */
  predicate InRecentWindow(rows: seq<Row>, inst: string, x: Row)
  {
    x.instrument == inst && WithinEightWeeks(OfInstrument(rows, inst), x)
  }

  /** Lines 117-129: the selected instrument's rows in week order, within eight weeks of
      its own latest week. It holds exactly the rows of `InRecentWindow`, each as often
      as in the table. */
  function Window(rows: seq<Row>, inst: string): (w: seq<Row>)
    ensures Pairwise(w, RowWeekLe)
    ensures forall x :: multiset(w)[x] == if InRecentWindow(rows, inst, x) then multiset(rows)[x] else 0
  {
    Recent(OfInstrument(rows, inst))
  }

  /** No row of another instrument influences the window, wherever it sits in the table. */
  lemma WindowIgnoresOtherInstruments(rows: seq<Row>, others: seq<Row>, inst: string)
    requires forall x :: x in others ==> x.instrument != inst
    ensures Window(rows + others, inst) == Window(rows, inst)
    ensures Window(others + rows, inst) == Window(rows, inst)
  {
    var none := OfInstrument(others, inst);
    assert none == [];
    FilterAppend(rows, others, IsOf(inst));
    FilterAppend(others, rows, IsOf(inst));
    assert OfInstrument(rows + others, inst) == OfInstrument(rows, inst);
    assert OfInstrument(others + rows, inst) == OfInstrument(rows, inst);
  }

  /** Two weeks on the same weekday that differ are at least seven days apart. */
  lemma GapIsAtLeastAWeek(a: int, b: int, c: int)
    requires a < b && a % 7 == c && b % 7 == c
    ensures b - a >= 7
  {
    assert a == 7 * (a / 7) + c;
    assert b == 7 * (b / 7) + c;
    assert b - a == 7 * (b / 7 - a / 7);
  }

  /** Rows with distinct weeks on one weekday, in week order, span seven days per step. */
  lemma {:induction false} WeeklySpread(w: seq<Row>, inst: string, c: int)
    requires 0 < |w|
    requires forall x :: x in w ==> x.instrument == inst && x.week.Some? && x.week.value % 7 == c
    requires Pairwise(w, RowWeekLe) && Pairwise(w, UniqueWeekPair)
    ensures w[|w| - 1].week.value - w[0].week.value >= 7 * (|w| - 1)
  {
    if |w| > 1 {
      var n := |w|;
      var p := w[..n - 1];
      assert forall x :: x in p ==> x in w;
      WeeklySpread(p, inst, c);
      assert w[n - 2] in w && w[n - 1] in w;
      assert RowWeekLe(w[n - 2], w[n - 1]) && UniqueWeekPair(w[n - 2], w[n - 1]);
      GapIsAtLeastAWeek(w[n - 2].week.value, w[n - 1].week.value, c);
    }
  }

  /** Weekly data: each parsed week of the instrument falls on weekday `c`, and within an
      instrument no parsed week repeats. */
  predicate WeeklyData(rows: seq<Row>, inst: string, c: int)
  {
    && (forall x :: x in rows && x.instrument == inst && x.week.Some? ==> x.week.value % 7 == c)
    && Pairwise(rows, UniqueWeekPair)
  }

  /** The window of weekly data: same-weekday rows with distinct weeks, all within eight
      weeks of one latest week. */
  lemma WeeklyWindowShape(rows: seq<Row>, inst: string, c: int)
    requires WeeklyData(rows, inst, c)
    ensures Pairwise(Window(rows, inst), UniqueWeekPair)
    ensures forall x :: x in Window(rows, inst) ==>
      && x.instrument == inst && x.week.Some? && x.week.value % 7 == c
      && MaxWeek(OfInstrument(rows, inst)).Some?
      && MaxWeek(OfInstrument(rows, inst)).value - WindowDays <= x.week.value <= MaxWeek(OfInstrument(rows, inst)).value
  {
    var w := Window(rows, inst);
    var own := OfInstrument(rows, inst);
    FilterKeepsPairwise(rows, IsOf(inst), UniqueWeekPair);
    assert Symmetric(UniqueWeekPair);
    RecentKeepsPairwise(own, UniqueWeekPair);
    forall x | x in w
      ensures InRecentWindow(rows, inst, x) && x in rows
    {
      assert x in multiset(w);
    }
  }

  /** The cutoff is inclusive: on weekly data the window holds at most nine rows (eight
      weeks back plus the latest one), not eight. */
  lemma WeeklyWindowHasAtMostNine(rows: seq<Row>, inst: string, c: int)
    requires WeeklyData(rows, inst, c)
    ensures |Window(rows, inst)| <= 9
  {
    var w := Window(rows, inst);
    if |w| > 0 {
      WeeklyWindowShape(rows, inst, c);
      var m := MaxWeek(OfInstrument(rows, inst)).value;
      assert w[0] in w && w[|w| - 1] in w;
      var first, last := w[0].week.value, w[|w| - 1].week.value;
      assert m - WindowDays <= first && last <= m;
      WeeklySpread(w, inst, c);
      assert last - first >= 7 * (|w| - 1);
    }
  }

  /** The two-bar attribution chart: system share and market share of one instrument. */
  datatype Attribution = Attribution(system: real, market: real)

  /** Lines 189-192: the first snapshot row of the instrument gives `pct_system`, and the
      market share is the rest of 100. `values[0]` of an empty selection is an error. */
  function Attribute(snap: seq<Row>, inst: string): (r: Result<Attribution, Error>)
    ensures r.Success? <==> inst in Instruments(snap)
    ensures r.Failure? ==> r.error == NoSnapshotRow(inst)
    ensures r.Success? ==> r.value.system + r.value.market == 100.0
    ensures r.Success? ==> exists x :: x in snap && x.instrument == inst && x.pctSystem == r.value.system
  {
    var matching := OfInstrument(snap, inst);
    if |matching| == 0 then
      Failure(NoSnapshotRow(inst))
    else
      assert matching[0] in matching;
      Success(Attribution(matching[0].pctSystem, 100.0 - matching[0].pctSystem))
  }

  /** With one row per instrument, the system share is that row's `pct_system`. */
  lemma AttributionOfOnlyRow(snap: seq<Row>, x: Row)
    requires DistinctInstruments(snap)
    requires x in snap
    ensures Attribute(snap, x.instrument) == Success(Attribution(x.pctSystem, 100.0 - x.pctSystem))
  {
    var r := Attribute(snap, x.instrument);
    assert x.instrument in Instruments(snap);
    var y :| y in snap && y.instrument == x.instrument && y.pctSystem == r.value.system;
    var i :| 0 <= i < |snap| && snap[i] == x;
    var j :| 0 <= j < |snap| && snap[j] == y;
    assert i == j;
  }
}

=== FILE: wrappers.dfy ===
/** Failure-carrying values shared by every stage of the dashboard pipeline. */
module Wrappers {

  /** A value that may be absent. A week that failed to parse is `None`. */
  datatype Option<+T> = None | Some(value: T)

  /** The outcome of a stage that may halt the pipeline with an error. */
  datatype Result<+T, +E> = Success(value: T) | Failure(error: E)
}
